=== FILE: README.md ===
# File converter core: cell normaliser, menu table and menu loop

A Dafny model of the parts of `app.py` (an interactive JSON/XLSX/CSV file
converter) whose behaviour can be stated exactly:

- the cell normaliser `trim_multiline_string`, which splits a text cell into
  lines the way Python's `str.splitlines` does, strips each line with
  `str.strip`, and rejoins the lines with `'\n'`. Any other cell is returned
  unchanged. Modules `TextLines` (Python string semantics: `isspace`,
  `splitlines`, `strip`, `'\n'.join`, `split('\n')`) and `CellNormalizer`;
- the output file name, built from the typed name, or else from the input's
  `basename` with its `splitext` extension removed, plus the entry's output
  extension (module `Paths`, over `/`-separated paths as `posixpath` treats
  them);
- the static `PROGRAM_MENU` table (module `Menu`). Each entry is a map from
  key names to values, as in the source, so the lookups `main` makes can
  fail with a `KeyError`;
- the `main` loop (module `Shell`) as a pure function `Run` from events to a
  trace of actions. The events are typed lines, file-dialog results,
  directory-dialog results, preview-load outcomes and conversion outcomes.
  `Run` also says how the loop stopped: exit choice, an uncaught exception,
  events exhausted, or an event the loop was not waiting for. The session
  globals are carried in the `Stage` value.

`Run` is parameterised by a `Program`, which pairs a menu table with a rule
for picking the preview loader:

- `AsWritten` is the program as it stands;
- `Corrected` fixes the two defects listed under Findings.

The loop lemmas are proved for every `Program`, except those whose names say
which program they are about (`CorrectedStep`, `CorrectedNeverMissesAKey`,
`ChoiceFiveCrashes`, `ChoiceFiveCorrected`, `AsWrittenPreviewLoader`,
`CorrectedPreviewMatchesFilter`).

## Model

| member | source | states |
|---|---|---|
| TextLines.LineBreakIsSpace | app.py:53 | every character at which `splitlines` breaks a line is whitespace for `strip` |
| TextLines.SplitLines | app.py:53 | `splitlines` gives no lines exactly for the empty text, no line contains a line-break character, and there are no more lines than characters; the lemmas SplitLinesSingle, SplitLinesCons, SplitLinesOtherBreak, SplitLinesCrLf and SplitLinesLoneCr state what each line is |
| TextLines.Strip | app.py:53 | the result of `strip` neither starts nor ends with whitespace |
| TextLines.StripFrames | app.py:53 | `strip` returns a slice of its input with only whitespace before and after it |
| TextLines.StripIdempotent | app.py:53 | a text that neither starts nor ends with whitespace is unchanged by `strip` |
| TextLines.SplitJoinNewline | app.py:53 | splitting on `'\n'` after `'\n'.join` gives back the pieces, when there is at least one piece and no piece contains `'\n'` (no pieces join to `""`, which splits into `[""]`) |
| TextLines.SplitLinesSingle | app.py:53 | a non-empty text without line breaks is one line |
| TextLines.SplitLinesCons | app.py:53 | a first line ended by `'\n'` comes off the front: its text is the first line and `splitlines` goes on after the `'\n'` |
| TextLines.SplitLinesOtherBreak | app.py:53 | any line-break character other than `'\r'` ends the first line on its own, and `splitlines` goes on after it |
| TextLines.SplitLinesCrLf | app.py:53 | `"\r\n"` ends the first line as one terminator, and `splitlines` goes on after both characters |
| TextLines.SplitLinesLoneCr | app.py:53 | a `'\r'` not followed by `'\n'` ends the first line on its own; with the three rows above and the empty case this fixes `splitlines` on every text |
| TextLines.JoinLines | app.py:53 | `'\n'.join`. No contract of its own; its behaviour is stated by SplitJoinNewline, SplitLinesJoin, JoinSplitLines and SplitLinesDropsTrailingEmptyLine |
| TextLines.SplitLinesJoin | app.py:53 | `splitlines` after `'\n'.join` gives back break-free lines, when the last line is not empty |
| TextLines.SplitLinesDropsTrailingEmptyLine | app.py:53 | a trailing terminator does not start another line: joining a line `a` and an empty line gives `a + "\n"`, and `splitlines` of that is the single line `a` |
| TextLines.JoinSplitLines | app.py:53 | a text whose only line breaks are `'\n'`, and which does not end in one, is rebuilt by joining its lines |
| CellNormalizer.TrimText | app.py:53 | the expression `'\n'.join(line.strip() for line in cell.splitlines())`. No contract of its own; its behaviour is stated by TrimLength, TrimLeavesOnlyNewlines, TrimPiecesAreStrippedLines, TrimPiecesAreStripped, TrimIdempotentUnlessLastLineBlank, TrimNotIdempotent and TrimIndentedTwoLines |
| CellNormalizer.TrimMultilineString | app.py:51-54 | a non-text cell is returned unchanged; a text cell stays text, is never longer, and the empty text stays empty |
| CellNormalizer.TrimLength | app.py:53 | trimming never lengthens a text |
| CellNormalizer.TrimLeavesOnlyNewlines | app.py:53 | the only line-break character in a trimmed text is `'\n'` |
| CellNormalizer.TrimPiecesAreStrippedLines | app.py:53 | split on `'\n'`, a trimmed text has exactly one piece per `splitlines` line, and each piece is that line stripped; a text with no lines trims to `""` |
| CellNormalizer.TrimPiecesAreStripped | app.py:53 | no `'\n'`-separated piece of a trimmed text starts or ends with whitespace |
| CellNormalizer.TrimIdempotentUnlessLastLineBlank | app.py:53 | trimming twice equals trimming once, unless the last line strips to nothing |
| CellNormalizer.StripAllSpace | app.py:53 | a line of whitespace only strips to the empty line |
| CellNormalizer.TrimNotIdempotent | app.py:53 | trimming is not idempotent: for a non-empty stripped line `a` and a blank line `b`, `a + "\n" + b + "\n"` trims to `a + "\n"`, which trims to `a` |
| CellNormalizer.TrimIndentedTwoLines | app.py:51-54 | two lines with whitespace around their contents trim to the contents joined by one `'\n'`, as `"  foo  \n   bar "` trims to `"foo\nbar"` |
| CellNormalizer.NormalizeColumns | app.py:79 | mapping the normaliser over every column keeps the table's shape and normalises each cell in place |
| Paths.Basename | app.py:203 | `basename` is a suffix of the path, and the character before it, if any, is `/` |
| Paths.BasenameHasNoSlash | app.py:203 | the base name contains no `/`, so it is the longest `/`-free suffix |
| Paths.SplitExt | app.py:203 | `splitext` splits a path into root and extension that concatenate back to the path. The extension is empty, or a dot followed by no dot and no `/`. A non-empty extension leaves a non-dot character in the root's last component. An empty extension means the last component has no dot after a non-dot character |
| Paths.Stem | app.py:203 | `os.path.splitext(os.path.basename(input_path))[0]`. No contract of its own; its behaviour is stated by the contracts of Basename and SplitExt and by OutputNameOfPlainFile |
| Paths.OutputName | app.py:203 | the output name always ends with the entry's extension; before it comes the typed name when one was typed, otherwise the input's stem |
| Paths.BasenameOfJoin | app.py:203 | for every directory, the base name of `dir/name` is `name`, when `name` holds no `/` |
| Paths.SplitExtRoundTrip | app.py:203 | a name that holds no `/` and has a non-dot character, followed by an extension `.ext` with no further dot or `/`, splits back into exactly the name and `.ext` |
| Paths.OutputNameOfPlainFile | app.py:203 | with nothing typed, input `dir/base.ext` gives output name `base` plus the entry's extension |
| Paths.TypedNameGetsExtensionAgain | app.py:203 | a non-empty typed name gets the extension appended even when it already ends with it: `name + extension` becomes `name + extension + extension` (`report.csv` becomes `report.csv.csv`) |
| Menu.SelectEntry | app.py:185-189 | the entry lookup succeeds exactly when the choice is in the table and its entry has both `inputFileType` and `outputExtension`; the selection holds those two values; any failure is a `KeyError` |
| Menu.ConversionOf | app.py:220-221 | a callback is found exactly when the entry has a `label` and a callable `callback`, and it is that callback |
| Menu.ProgramMenuLookup | app.py:121-168 | as written, the lookups succeed for choices 1-4 and 6 with entries whose filter and extension match their callback, and fail for choice 5 with `KeyError('inputFileType')` |
| Menu.NormalizedMenuLookup | app.py:150-156 | with entry 5 using the keys of the others, every conversion choice is found, consistent, has a text extension and a callback |
| Menu.ExitEntryHasNoConversion | app.py:164-167 | the exit entry has no callback and is not a conversion choice |
| Shell.Step | app.py:172-224 | one pass of the loop, from one wait to the next. No contract of its own; its behaviour is stated by ExitEndsLoop, InvalidChoiceReturnsToMenu, CancelledFileReturnsToMenu, CancelledDirectoryReturnsToMenu, PreviewFailureSkipsConversion, ConversionFailureContinues, StepExits, StepKeepsSession, StepUsesDialogPaths and StepPreviews |
| Shell.RunFrom | app.py:172-224 | the `while True` loop from a given wait on. No contract of its own; its behaviour over every run is stated by ExitOnlyBySeven, ConversionNeedsPickedPaths, ConversionUsesDialogPaths, ConversionFollowsPreview and CorrectedNeverMissesAKey |
| Shell.Run | app.py:170-224 | `main`: the menu is printed, then the loop runs. No contract of its own; its behaviour is stated by ConversionRound, ChoiceFiveCrashes and RunConvertsDialogPaths |
| Shell.ExitEndsLoop | app.py:177-179 | choice 7 ends the loop at once, whatever events follow |
| Shell.InvalidChoiceReturnsToMenu | app.py:181-183 | any choice outside 1-7 shows an error and goes back to the menu, without a dialog or a conversion |
| Shell.CancelledFileReturnsToMenu | app.py:192-195 | an empty file-dialog result, or a file dialog that fails (`select_file` then returns `None`), returns to the menu before the directory dialog opens |
| Shell.CancelledDirectoryReturnsToMenu | app.py:197-201 | an empty directory-dialog result returns to the menu without converting; a directory dialog that fails ends the program |
| Shell.PreviewFailureSkipsConversion | app.py:206-217 | a preview load that fails skips the conversion and the loop goes on |
| Shell.ConversionFailureContinues | app.py:219-224 | a failed conversion is reported and the loop goes on |
| Shell.ConversionRound | app.py:185-224 | a complete round opens the entry's filter, asks for the directory and name, previews the picked file, then runs the entry's callback on it with the derived output path. The outcome is reported and the loop is back at the menu |
| Shell.ExitOnlyBySeven | app.py:172-183 | the loop reports an exit only if some event is the exit choice 7, read while the loop waits at the menu (`StageAt` is `AtMenu` there); the run then ends with the goodbye message and its outcome is the same when every event after that one is dropped |
| Shell.StepExits | app.py:177-179 | a single step stops with an exit only when it is at the menu and reads the exit choice 7, and its one action is the goodbye message |
| Shell.StepKeepsSession | app.py:191-204 | one step of the loop keeps the session paths set once picked, and any conversion it starts has a non-empty input and output directory |
| Shell.ConversionNeedsPickedPaths | app.py:191-204 | in every run, each conversion is given a non-empty input path and a non-empty output directory: cancelling either dialog never reaches a conversion |
| Shell.StepUsesDialogPaths | app.py:191-204 | one step of the loop hands a conversion only the input path and directory its stage took from the dialogs, and a stage takes a new path only from a file or directory dialog result just read |
| Shell.ConversionUsesDialogPaths | app.py:191-221 | from any stage whose paths came from dialog results already seen, every conversion of the run is given an input path that a file dialog returned and a directory that a directory dialog returned |
| Shell.RunConvertsDialogPaths | app.py:170-224 | in every run of `main`, each conversion's input path is one returned by a file dialog and its output directory one returned by a directory dialog |
| Shell.StepPreviews | app.py:206-221 | one step starts a conversion only from the preview stage, and enters the preview stage only with a preview load of the same input as its last action |
| Shell.ConversionFollowsPreview | app.py:206-221 | in every run, each conversion comes directly after a preview load of the same input |
| Shell.CorrectedStep | app.py:185-201 | in the corrected program one step keeps a text output extension and can only crash on the directory dialog |
| Shell.CorrectedNeverMissesAKey | app.py:185-189 | in the corrected program no run ends in a `KeyError` or `TypeError`; the only uncaught failure left is the directory dialog |
| Shell.ChoiceFiveCrashes | app.py:150-156 | as written, choosing 5 ends the program with `KeyError('inputFileType')` right after the menu is shown |
| Shell.ChoiceFiveCorrected | app.py:150-156 | in the corrected program, choosing 5 opens the file dialog filtered to CSV files |
| Shell.AsWrittenPreviewLoader | app.py:208-214 | as written, choices 1-2 preview through the JSON loader and every other conversion choice through the CSV loader, while the dialog of choices 3-4 offers `*.xlsx` files |
| Shell.CorrectedPreviewMatchesFilter | app.py:208-214 | in the corrected program, the preview uses the loader for the format the file dialog offered |

## Findings

| source | as written | input that shows it | evidently intended | confidence | as-written member | corrected member |
|---|---|---|---|---|---|---|
| app.py:150-156 | entry `'5'` stores its filter and extension under `fileType` and `extension`, but `main` reads `inputFileType` at line 188, outside any `try` | menu choice `5` | entry 5 uses `inputFileType`/`outputExtension` like the others, and CSV to JSON works | high; not executed | Shell.ChoiceFiveCrashes | Shell.ChoiceFiveCorrected |
| app.py:208-214 | every conversion choice except 1 and 2 previews its input with `load_csv` | menu choice `3` or `4`, with an `.xlsx` file picked in the dialog | XLSX inputs previewed with `load_excel`, so they reach the conversion | medium; not executed | Shell.AsWrittenPreviewLoader | Shell.CorrectedPreviewMatchesFilter |

For the second finding, the model treats the preview's success as an
outside event. It shows which loader is chosen, not that `read_csv` rejects
an XLSX file.

Two dialog failures take different paths in the code, and the model
follows it:

- A directory dialog that fails is not caught (`select_directory`,
  app.py:114-119, has no `try`), so it ends the program.
- A file dialog that fails is caught in `select_file` (app.py:111-112). The
  loop then reports "No file selected" and goes back to the menu
  (app.py:193-195).

## Left out

- Reading and writing files (`json.load`, `json.dump`, `json_normalize`, `read_excel`, `read_csv`, `to_excel`, `to_csv`, `to_dict`): library behaviour. The preview load and the callback are outcome events; only the cell normalisation of the JSON pipelines is modelled (`NormalizeColumns`).
- tkinter dialogs: their results are input events. A failure to open a dialog is the `DialogFailed` result.
- `os.path.join` and `os.path.normpath`: the output path is the pair of directory and name (`OutputPath`).
- The progress bar and `time.sleep`, the banner, menu rendering and colours. Printing the menu is the single action `ShowMenu`; each message is one action.
- The record count and megabyte summary of the preview: floating-point formatting over the file size.
- `EOFError` or `KeyboardInterrupt` from `input()`: the event sequence simply ends, and the run halts with `OutOfInput`.
- An event of a different kind from the one the loop waits for cannot happen in the program. The model stops with `UnexpectedEvent`.
- Python strings may hold lone surrogates; Dafny characters are Unicode scalar values, so those code points are not modelled.
- A file dialog that returns an empty tuple on cancel is modelled as the empty path; both are falsy and take the same branch.
- The corrected preview rule falls back to the CSV loader for an entry without a callback; no entry of the corrected table lacks one.
- CellNormalizer.TrimMultilineString: its own contract states only shape facts (kind, length, empty stays empty); what a text cell becomes is stated by the TrimPieces lemmas over `TrimText`.

=== FILE: cell_normalizer.dfy ===
/**
 The cell normaliser `trim_multiline_string` of app.py and its use on every
 cell of a loaded JSON table before it is written out.
 */
module CellNormalizer {
  import opened TextLines

  /**
   A table cell as the tabular library holds it: text, or any other scalar
   (number, boolean, missing value) or nested structure, which the
   normaliser never looks into.
   */
  datatype Cell =
    | Text(text: string)
    | Integer(i: int)
    | Boolean(b: bool)
    | Missing
    | Other(tag: nat)

  /** Strip every line of a text and rejoin the lines with `'\n'`. */
  function TrimText(s: string): string
  {
    JoinLines(StripAll(SplitLines(s)))
  }

  /** `[line.strip() for line in lines]`. */
  function StripAll(lines: seq<string>): (r: seq<string>)
    ensures |r| == |lines|
    ensures forall i :: 0 <= i < |r| ==> r[i] == Strip(lines[i])
  {
    if |lines| == 0 then [] else [Strip(lines[0])] + StripAll(lines[1..])
  }

  /**
   `trim_multiline_string`: a text cell has each of its lines stripped; any
   other cell is returned as it is.
   */
  function TrimMultilineString(cell: Cell): (r: Cell)
    ensures !cell.Text? ==> r == cell
    ensures cell.Text? ==> r.Text? && |r.text| <= |cell.text|
    ensures cell.Text? && cell.text == "" ==> r == Text("")
  {
    match cell
    case Text(s) =>
      TrimLength(s);
      Text(TrimText(s))
    case _ => cell
  }

  lemma {:induction false} StrippedLinesLength(lines: seq<string>)
    ensures |JoinLines(StripAll(lines))| <= |JoinLines(lines)|
    decreases |lines|
  {
    if |lines| > 1 {
      StrippedLinesLength(lines[1..]);
      assert StripAll(lines)[1..] == StripAll(lines[1..]);
    }
  }

  /** Trimming never makes a text longer: only whitespace and terminators are dropped. */
  lemma TrimLength(s: string)
    ensures |TrimText(s)| <= |s|
  {
    var lines := SplitLines(s);
    StrippedLinesLength(lines);
    JoinedLength(s);
  }

  /** The lines of `s`, rejoined with one-character separators, are no longer than `s`. */
  lemma {:induction false} JoinedLength(s: string)
    ensures |JoinLines(SplitLines(s))| <= |s|
    decreases |s|
  {
    if |s| > 0 {
      var i := FirstBreak(s);
      if i < |s| {
        var rest := s[i + BreakLength(s, i)..];
        JoinedLength(rest);
        if |SplitLines(rest)| == 0 {
          assert SplitLines(s) == [s[..i]];
        } else {
          assert SplitLines(s)[1..] == SplitLines(rest);
        }
      }
    }
  }

  /** Text holding no line break, and stripped pieces, keep that through JoinLines. */
  lemma {:induction false} JoinedBreaksAreNewlines(lines: seq<string>)
    requires forall i :: 0 <= i < |lines| ==> NoLineBreak(lines[i])
    ensures forall k :: 0 <= k < |JoinLines(lines)| ==>
                          JoinLines(lines)[k] == '\n' || !IsLineBreak(JoinLines(lines)[k])
    decreases |lines|
  {
    if |lines| > 1 {
      JoinedBreaksAreNewlines(lines[1..]);
      var s := JoinLines(lines);
      var tail := JoinLines(lines[1..]);
      assert s == lines[0] + "\n" + tail;
      forall k | 0 <= k < |s| ensures s[k] == '\n' || !IsLineBreak(s[k]) {
        if k < |lines[0]| {
          assert s[k] == lines[0][k];
        } else if k > |lines[0]| {
          assert s[k] == tail[k - |lines[0]| - 1];
        }
      }
    }
  }

  /** Every stripped line is free of line breaks. */
  lemma StripAllNoLineBreak(s: string)
    ensures forall i :: 0 <= i < |StripAll(SplitLines(s))| ==> NoLineBreak(StripAll(SplitLines(s))[i])
  {
    var lines := SplitLines(s);
    forall i | 0 <= i < |lines| ensures NoLineBreak(StripAll(lines)[i]) {
      StripKeepsNoLineBreak(lines[i]);
    }
  }

  /** The only line-break character left in a trimmed text is `'\n'`. */
  lemma TrimLeavesOnlyNewlines(s: string)
    ensures forall k :: 0 <= k < |TrimText(s)| && IsLineBreak(TrimText(s)[k]) ==> TrimText(s)[k] == '\n'
  {
    StripAllNoLineBreak(s);
    JoinedBreaksAreNewlines(StripAll(SplitLines(s)));
  }

  /**
   Split on `'\n'`, a trimmed text has exactly one piece per line that
   `splitlines` found, and each piece is that line stripped; a text without
   lines trims to `""`.
   */
  lemma TrimPiecesAreStrippedLines(s: string)
    ensures |SplitLines(s)| == 0 ==> TrimText(s) == ""
    ensures |SplitLines(s)| > 0 ==>
              var pieces := SplitOnNewline(TrimText(s));
              && |pieces| == |SplitLines(s)|
              && forall i :: 0 <= i < |pieces| ==> pieces[i] == Strip(SplitLines(s)[i])
  {
    var stripped := StripAll(SplitLines(s));
    if |stripped| > 0 {
      StripAllNoLineBreak(s);
      forall i | 0 <= i < |stripped| ensures NoNewline(stripped[i]) {
        assert NoLineBreak(stripped[i]);
      }
      SplitJoinNewline(stripped);
    }
  }

  /** No `'\n'`-separated piece of a trimmed text begins or ends with whitespace. */
  lemma TrimPiecesAreStripped(s: string)
    ensures forall i :: 0 <= i < |SplitOnNewline(TrimText(s))| ==> Stripped(SplitOnNewline(TrimText(s))[i])
  {
    TrimPiecesAreStrippedLines(s);
    if |SplitLines(s)| == 0 {
      assert SplitOnNewline("") == [""];
    }
  }

  /**
   Trimming twice gives the same text as trimming once, provided the last
   line does not strip down to nothing (see TrimNotIdempotent for why that
   proviso is needed).
   */
  lemma TrimIdempotentUnlessLastLineBlank(s: string)
    requires |SplitLines(s)| == 0 || Strip(SplitLines(s)[|SplitLines(s)| - 1]) != ""
    ensures TrimText(TrimText(s)) == TrimText(s)
  {
    var stripped := StripAll(SplitLines(s));
    StripAllNoLineBreak(s);
    SplitLinesJoin(stripped);
    assert SplitLines(TrimText(s)) == stripped;
    StripAllIdempotent(SplitLines(s));
  }

  lemma StripAllIdempotent(lines: seq<string>)
    ensures StripAll(StripAll(lines)) == StripAll(lines)
  {
    var stripped := StripAll(lines);
    forall i | 0 <= i < |stripped| ensures StripAll(stripped)[i] == stripped[i] {
      StripIdempotent(stripped[i]);
    }
  }

  /**
   Two indented lines trim to their contents joined by one `'\n'`; for
   instance `"  foo  \n   bar "` trims to `"foo\nbar"`.
   */
  lemma TrimIndentedTwoLines(lead1: string, a: string, trail1: string, lead2: string, b: string, trail2: string)
    requires AllSpace(lead1) && AllSpace(trail1) && AllSpace(lead2) && AllSpace(trail2)
    requires NoLineBreak(lead1 + a + trail1) && NoLineBreak(lead2 + b + trail2)
    requires Stripped(a) && Stripped(b) && |a| > 0 && |b| > 0
    ensures TrimText(lead1 + a + trail1 + "\n" + lead2 + b + trail2) == a + "\n" + b
  {
    // Left visible, these bodies flood the solver with sequence axioms; the step lemmas suffice.
    hide SplitLines, StripLeading, StripTrailing, FirstBreak;
    var l1, l2 := lead1 + a + trail1, lead2 + b + trail2;
    assert lead1 + a + trail1 + "\n" + lead2 + b + trail2 == l1 + "\n" + l2;
    SplitTwoLines(l1, l2);
    StripExample(lead1, a, trail1);
    StripExample(lead2, b, trail2);
    TrimOfLines(l1 + "\n" + l2, [l1, l2], [a, b]);
    JoinTwoLines(a, b);
  }

  /** Trimming a text whose lines are known, once their stripped forms are known. */
  lemma TrimOfLines(s: string, lines: seq<string>, stripped: seq<string>)
    requires SplitLines(s) == lines
    requires |stripped| == |lines| && forall i :: 0 <= i < |lines| ==> stripped[i] == Strip(lines[i])
    ensures TrimText(s) == JoinLines(stripped)
  {
    assert StripAll(lines) == stripped;
  }

  /** A stripped `r` framed by whitespace is what `strip` returns. */
  lemma StripExample(lead: string, r: string, trail: string)
    requires AllSpace(lead) && AllSpace(trail) && Stripped(r) && |r| > 0
    ensures Strip(lead + r + trail) == r
  {
    // Left visible, the recursive strips unfold again and again on the concatenation; the At lemmas suffice.
    hide StripLeading, StripTrailing;
    var s := lead + r + trail;
    var i := |lead|;
    assert s[..i] == lead;
    assert s[i] == r[0];
    StripLeadingAt(s, i);
    var a := s[i..];
    assert a == r + trail;
    assert a[..|r|] == r;
    assert a[|r|..] == trail;
    StripTrailingAt(a, |r|);
  }

  lemma {:induction false} StripLeadingAt(s: string, i: nat)
    requires i < |s| && AllSpace(s[..i]) && !IsSpace(s[i])
    ensures StripLeading(s) == s[i..]
    decreases i
  {
    if i > 0 {
      assert IsSpace(s[..i][0]);
      assert s[1..][..i - 1] == s[..i][1..];
      StripLeadingAt(s[1..], i - 1);
      assert s[1..][i - 1..] == s[i..];
    }
  }

  lemma {:induction false} StripTrailingAt(s: string, j: nat)
    requires 0 < j <= |s| && AllSpace(s[j..]) && !IsSpace(s[j - 1])
    ensures StripTrailing(s) == s[..j]
    decreases |s| - j
  {
    if j < |s| {
      assert IsSpace(s[j..][|s| - 1 - j]);
      var t := s[..|s| - 1];
      assert t[j..] == s[j..|s| - 1];
      StripTrailingAt(t, j);
      assert t[..j] == s[..j];
    }
  }

  /**
   Trimming is not idempotent: a last line that strips to nothing leaves a
   trailing `'\n'` (`"a\n \n"` trims to `"a\n"`), which a second pass
   then drops (`"a\n"` trims to `"a"`).
   */
  lemma TrimNotIdempotent(a: string, blank: string)
    requires |a| > 0 && Stripped(a) && NoLineBreak(a)
    requires AllSpace(blank) && NoLineBreak(blank)
    ensures TrimText(a + "\n" + blank + "\n") == a + "\n"
    ensures TrimText(a + "\n") == a
  {
    TrimBlankLastLine(a, blank);
    TrimTerminatedLine(a);
  }

  lemma TrimBlankLastLine(a: string, blank: string)
    requires Stripped(a) && NoLineBreak(a)
    requires AllSpace(blank) && NoLineBreak(blank)
    ensures TrimText(a + "\n" + blank + "\n") == a + "\n"
  {
    // Left visible, these bodies flood the solver with sequence axioms; the step lemmas suffice.
    hide SplitLines, StripLeading, StripTrailing, FirstBreak;
    SplitTwoTerminatedLines(a, blank);
    StripIdempotent(a);
    StripAllSpace(blank);
    TrimOfLines(a + "\n" + blank + "\n", [a, blank], [a, ""]);
    SplitLinesDropsTrailingEmptyLine(a);
  }

  lemma TrimTerminatedLine(a: string)
    requires Stripped(a) && NoLineBreak(a)
    ensures TrimText(a + "\n") == a
  {
    // Left visible, these bodies flood the solver with sequence axioms; the step lemmas suffice.
    hide SplitLines, StripLeading, StripTrailing, FirstBreak;
    SplitTerminatedLine(a);
    StripIdempotent(a);
    TrimOfLines(a + "\n", [a], [a]);
  }

  /** A text of whitespace only strips to nothing. */
  lemma StripAllSpace(s: string)
    requires AllSpace(s)
    ensures Strip(s) == ""
  {
    StripLeadingAllSpace(s);
  }

  lemma {:induction false} StripLeadingAllSpace(s: string)
    requires AllSpace(s)
    ensures StripLeading(s) == ""
    decreases |s|
  {
    if |s| > 0 {
      assert IsSpace(s[0]);
      assert AllSpace(s[1..]) by {
        forall k | 0 <= k < |s| - 1 ensures IsSpace(s[1..][k]) {
          assert s[1..][k] == s[k + 1];
        }
      }
      StripLeadingAllSpace(s[1..]);
    }
  }

  /**
   `df.apply(lambda col: col.map(trim_multiline_string))`: every cell of
   every column is normalised, and the table keeps its shape.
   */
  function NormalizeColumns(columns: seq<seq<Cell>>): (r: seq<seq<Cell>>)
    ensures |r| == |columns|
    ensures forall c :: 0 <= c < |r| ==> |r[c]| == |columns[c]|
    ensures forall c, k :: 0 <= c < |r| && 0 <= k < |r[c]| ==> r[c][k] == TrimMultilineString(columns[c][k])
  {
    seq(|columns|, c requires 0 <= c < |columns| =>
      seq(|columns[c]|, k requires 0 <= k < |columns[c]| => TrimMultilineString(columns[c][k])))
  }
}

=== FILE: menu.dfy ===
/**
 The static `PROGRAM_MENU` table of app.py (lines 121-168) and the field
 lookups `main` makes in it. An entry is a dictionary from key names to
 values, as in the source, so a lookup can fail with a `KeyError`.
 */
module Menu {

  datatype Format = Json | Xlsx | Csv

  /** One of the six `convert_*` callbacks, named by its source and target format. */
  datatype Conversion = Conversion(source: Format, target: Format)

  /** One `(description, pattern)` pair of a file-dialog filter list. */
  datatype FileFilter = FileFilter(description: string, pattern: string)

  /** A value stored under a key of a menu entry. */
  datatype FieldValue =
    | Text(text: string)
    | Filters(filters: seq<FileFilter>)
    | Callback(conversion: Conversion)

  datatype MenuEntry = MenuEntry(fields: map<string, FieldValue>)

  type MenuTable = map<string, MenuEntry>

  /** An exception `main` does not catch: it ends the program. */
  datatype Uncaught =
    | KeyError(key: string)
    | TypeError
    | DirectoryDialogFailed

  datatype Result<T> = Ok(value: T) | Err(error: Uncaught)

  /** The choices `main` accepts as conversions (app.py:181). */
  const ConversionChoices: seq<string> := ["1", "2", "3", "4", "5", "6"]

  /** The choice that ends the loop (app.py:177). */
  const ExitChoice: string := "7"

  function Extension(f: Format): string {
    match f
    case Json => ".json"
    case Xlsx => ".xlsx"
    case Csv => ".csv"
  }

  function Pattern(f: Format): string {
    "*" + Extension(f)
  }

  function FilterFor(f: Format): FileFilter {
    match f
    case Json => FileFilter("JSON files", Pattern(Json))
    case Xlsx => FileFilter("XLSX files", Pattern(Xlsx))
    case Csv => FileFilter("CSV files", Pattern(Csv))
  }

  function Label(c: Conversion): string {
    var name := (f: Format) => match f case Json => "JSON" case Xlsx => "XLSX" case Csv => "CSV";
    name(c.source) + " to " + name(c.target)
  }

  /** An entry written with the keys entries 1-4 and 6 use. */
  function StandardEntry(c: Conversion): MenuEntry {
    MenuEntry(map[
      "label" := Text(Label(c)),
      "color" := Text("green"),
      "inputFileType" := Filters([FilterFor(c.source)]),
      "outputExtension" := Text(Extension(c.target)),
      "callback" := Callback(c)])
  }

  /** Entry 5 as written: its filter and extension sit under `fileType` and `extension`. */
  function MisnamedEntry(c: Conversion): MenuEntry {
    MenuEntry(map[
      "label" := Text(Label(c)),
      "color" := Text("green"),
      "fileType" := Filters([FilterFor(c.source)]),
      "extension" := Text(Extension(c.target)),
      "callback" := Callback(c)])
  }

  const ExitEntry: MenuEntry := MenuEntry(map["label" := Text("Exit"), "color" := Text("red")])

  /** `PROGRAM_MENU` as written. */
  const ProgramMenu: MenuTable := map[
    "1" := StandardEntry(Conversion(Json, Xlsx)),
    "2" := StandardEntry(Conversion(Json, Csv)),
    "3" := StandardEntry(Conversion(Xlsx, Json)),
    "4" := StandardEntry(Conversion(Xlsx, Csv)),
    "5" := MisnamedEntry(Conversion(Csv, Json)),
    "6" := StandardEntry(Conversion(Csv, Xlsx)),
    "7" := ExitEntry]

  /** The table with entry 5 written like the others. */
  const NormalizedMenu: MenuTable := ProgramMenu["5" := StandardEntry(Conversion(Csv, Json))]

  /** What `main` keeps of an entry after the lookups of app.py:185-189. */
  datatype Selection = Selection(choice: string, filters: FieldValue, extension: FieldValue, entry: MenuEntry)

  /**
   `PROGRAM_MENU[choice]`, then its `inputFileType` and `outputExtension`:
   the first missing key raises a `KeyError` that nothing catches.
   */
  function SelectEntry(menu: MenuTable, choice: string): (r: Result<Selection>)
    ensures r.Ok? <==> choice in menu && "inputFileType" in menu[choice].fields
                        && "outputExtension" in menu[choice].fields
    ensures r.Ok? ==> r.value.choice == choice && r.value.entry == menu[choice]
                      && r.value.filters == menu[choice].fields["inputFileType"]
                      && r.value.extension == menu[choice].fields["outputExtension"]
    ensures r.Err? ==> r.error.KeyError?
  {
    if choice !in menu then Err(KeyError(choice))
    else
      var fields := menu[choice].fields;
      if "inputFileType" !in fields then Err(KeyError("inputFileType"))
      else if "outputExtension" !in fields then Err(KeyError("outputExtension"))
      else Ok(Selection(choice, fields["inputFileType"], fields["outputExtension"], menu[choice]))
  }

  /**
   `selectedFeature['label']` and then `selectedFeature['callback']`
   (app.py:220-221): both inside the conversion's `try`, so a missing key
   or a value that cannot be called is reported as a failed conversion.
   */
  function ConversionOf(entry: MenuEntry): (r: Option<Conversion>)
    ensures r.Some? <==> "label" in entry.fields && "callback" in entry.fields
                         && entry.fields["callback"].Callback?
    ensures r.Some? ==> r.value == entry.fields["callback"].conversion
  {
    if "label" in entry.fields && "callback" in entry.fields && entry.fields["callback"].Callback?
    then Some(entry.fields["callback"].conversion)
    else None
  }

  datatype Option<T> = None | Some(value: T)

  /**
   An entry is consistent when its filter offers the callback's source
   format and its output extension is the callback's target format.
   */
  ghost predicate Consistent(entry: MenuEntry) {
    && "inputFileType" in entry.fields
    && "outputExtension" in entry.fields
    && "callback" in entry.fields
    && entry.fields["callback"].Callback?
    && var c := entry.fields["callback"].conversion;
       && entry.fields["inputFileType"] == Filters([FilterFor(c.source)])
       && entry.fields["outputExtension"] == Text(Extension(c.target))
  }

  /**
   As written, the lookups succeed for entries 1-4 and 6 and fail for entry
   5 with `KeyError('inputFileType')`.
   */
  lemma ProgramMenuLookup(choice: string)
    requires choice in ConversionChoices
    ensures SelectEntry(ProgramMenu, choice).Ok? <==> choice != "5"
    ensures choice == "5" ==> SelectEntry(ProgramMenu, choice) == Err(KeyError("inputFileType"))
    ensures choice != "5" ==> Consistent(ProgramMenu[choice])
  {
    if choice == "5" {
      assert ProgramMenu[choice] == MisnamedEntry(Conversion(Csv, Json));
    } else {
      StandardEntryConsistent(ProgramMenu, choice);
    }
  }

  /** Entries written with the standard keys are found and consistent. */
  lemma StandardEntryConsistent(menu: MenuTable, choice: string)
    requires choice in menu && exists c :: menu[choice] == StandardEntry(c)
    ensures SelectEntry(menu, choice).Ok?
    ensures Consistent(menu[choice])
    ensures SelectEntry(menu, choice).value.extension.Text?
    ensures ConversionOf(menu[choice]).Some?
  {
  }

  /** With entry 5 normalised, every conversion entry is found and consistent. */
  lemma NormalizedMenuLookup(choice: string)
    requires choice in ConversionChoices
    ensures SelectEntry(NormalizedMenu, choice).Ok?
    ensures Consistent(NormalizedMenu[choice])
    ensures SelectEntry(NormalizedMenu, choice).value.extension.Text?
    ensures ConversionOf(NormalizedMenu[choice]).Some?
  {
    StandardEntryConsistent(NormalizedMenu, choice);
  }

  /** The exit entry carries no conversion: it is never looked up (app.py:177-179). */
  lemma ExitEntryHasNoConversion()
    ensures ConversionOf(ProgramMenu[ExitChoice]).None?
    ensures ExitChoice !in ConversionChoices
  {
  }
}

=== FILE: paths.dfy ===
/**
 The output file name of a conversion (app.py:203): the typed name, or else
 the input file's base name without its last extension, followed by the
 menu entry's output extension. Paths are `/`-separated, as `posixpath`
 treats them.
 */
module Paths {

  /** Index of the last `c` in `s`, or -1 when `s` holds none. */
  function LastIndex(s: string, c: char): (r: int)
    ensures -1 <= r < |s|
    ensures r >= 0 ==> s[r] == c
    ensures forall k :: r < k < |s| ==> s[k] != c
  {
    if |s| == 0 then -1
    else if s[|s| - 1] == c then |s| - 1
    else LastIndex(s[..|s| - 1], c)
  }

  /** `os.path.basename`: what follows the last `/`. */
  function Basename(p: string): (r: string)
    ensures |r| <= |p| && r == p[|p| - |r|..]
    ensures |r| < |p| ==> p[|p| - |r| - 1] == '/'
  {
    p[LastIndex(p, '/') + 1..]
  }

  /** A base name holds no `/`, so with the previous lemma it is the longest such suffix. */
  lemma BasenameHasNoSlash(p: string)
    ensures forall k :: 0 <= k < |Basename(p)| ==> Basename(p)[k] != '/'
  {
    var sep := LastIndex(p, '/');
    var r := Basename(p);
    forall k | 0 <= k < |r| ensures r[k] != '/' {
      assert r[k] == p[sep + 1 + k];
    }
  }

  /** Some character of `p[lo..hi]` is not a dot. */
  predicate HasNonDot(p: string, lo: int, hi: int)
    requires 0 <= lo && hi <= |p|
  {
    exists k :: lo <= k < hi && p[k] != '.'
  }

  /**
   No dot of the last path component of `p` follows a character other than a
   dot: a name like `.bashrc` or `..` has no extension.
   */
  ghost predicate NoExtension(p: string) {
    var start := LastIndex(p, '/') + 1;
    forall d :: start <= d < |p| && p[d] == '.' ==> !HasNonDot(p, start, d)
  }

  /**
   `os.path.splitext`: the last dot of the last component starts the
   extension, unless everything before it in that component is dots.
   */
  function SplitExt(p: string): (r: (string, string))
    ensures r.0 + r.1 == p
    ensures r.1 == "" || (r.1[0] == '.' && forall k :: 1 <= k < |r.1| ==> r.1[k] != '.' && r.1[k] != '/')
    ensures r.1 != "" ==> HasNonDot(p, LastIndex(p, '/') + 1, |r.0|)
    ensures r.1 == "" ==> NoExtension(p)
  {
    var sep := LastIndex(p, '/');
    var dot := LastIndex(p, '.');
    if dot > sep && HasNonDot(p, sep + 1, dot) then
      var ext := p[dot..];
      assert forall k :: 0 <= k < |ext| ==> ext[k] == p[dot + k];
      (p[..dot], ext)
    else
      (p, "")
  }

  /** `os.path.splitext(os.path.basename(p))[0]`: the input file's name without extension. */
  function Stem(p: string): string
  {
    SplitExt(Basename(p)).0
  }

  /**
   The output name: the typed name when one was typed, otherwise the stem of
   the input path; the output extension is appended in both cases.
   */
  function OutputName(typed: string, inputPath: string, extension: string): (r: string)
    ensures |r| >= |extension| && r[|r| - |extension|..] == extension
    ensures typed != "" ==> r[..|r| - |extension|] == typed
    ensures typed == "" ==> r[..|r| - |extension|] == Stem(inputPath)
  {
    (if typed != "" then typed else Stem(inputPath)) + extension
  }

  /**
   Where the output is written. `os.path.join` and `os.path.normpath` are
   kept abstract: the path is the chosen directory and the output name.
   */
  datatype OutputPath = OutputPath(directory: string, name: string)

  /** The base name of `dir/name` is `name`, when `name` holds no `/`. */
  lemma BasenameOfJoin(dir: string, name: string)
    requires forall k :: 0 <= k < |name| ==> name[k] != '/'
    ensures Basename(dir + "/" + name) == name
    decreases |name|
  {
    var p := dir + "/" + name;
    if |name| > 0 {
      var init := name[..|name| - 1];
      assert p[..|p| - 1] == dir + "/" + init;
      BasenameOfJoin(dir, init);
      assert name == init + [name[|name| - 1]];
    }
  }

  /**
   A name without `/` that has a non-dot character, followed by an extension (a dot and then
   neither dots nor slashes), splits back into exactly those two parts.
   */
  lemma SplitExtRoundTrip(base: string, ext: string)
    requires forall k :: 0 <= k < |base| ==> base[k] != '/'
    requires exists k :: 0 <= k < |base| && base[k] != '.'
    requires |ext| >= 1 && ext[0] == '.'
    requires forall k :: 1 <= k < |ext| ==> ext[k] != '.' && ext[k] != '/'
    ensures SplitExt(base + ext) == (base, ext)
  {
    var p := base + ext;
    var sep := LastIndex(p, '/');
    var dot := LastIndex(p, '.');
    assert forall k :: 0 <= k < |p| ==> p[k] != '/' by {
      forall k | 0 <= k < |p| ensures p[k] != '/' {
        if k < |base| {
          assert p[k] == base[k];
        } else {
          assert p[k] == ext[k - |base|];
        }
      }
    }
    assert sep == -1;
    assert p[|base|] == '.';
    assert forall k :: |base| < k < |p| ==> p[k] != '.' by {
      forall k | |base| < k < |p| ensures p[k] != '.' {
        assert p[k] == ext[k - |base|];
      }
    }
    assert dot == |base|;
    var k :| 0 <= k < |base| && base[k] != '.';
    assert p[k] == base[k];
    assert HasNonDot(p, sep + 1, dot);
    assert p[..dot] == base;
    assert p[dot..] == ext;
  }

  /**
   With nothing typed, the input file `dir/base.ext` gives the output name
   `base` followed by the output extension.
   */
  lemma OutputNameOfPlainFile(dir: string, base: string, ext: string, extension: string)
    requires forall k :: 0 <= k < |base| ==> base[k] != '/'
    requires exists k :: 0 <= k < |base| && base[k] != '.'
    requires |ext| >= 1 && ext[0] == '.'
    requires forall k :: 1 <= k < |ext| ==> ext[k] != '.' && ext[k] != '/'
    ensures OutputName("", dir + "/" + base + ext, extension) == base + extension
  {
    assert forall k :: 0 <= k < |base + ext| ==> (base + ext)[k] != '/' by {
      forall k | 0 <= k < |base + ext| ensures (base + ext)[k] != '/' {
        if k < |base| {
          assert (base + ext)[k] == base[k];
        } else {
          assert (base + ext)[k] == ext[k - |base|];
        }
      }
    }
    assert dir + "/" + base + ext == dir + "/" + (base + ext);
    BasenameOfJoin(dir, base + ext);
    SplitExtRoundTrip(base, ext);
  }

  /**
   The extension is appended even when the typed name already ends with it:
   a non-empty typed `name + extension` gives `name + extension + extension`;
   typing `report.csv` for a CSV output gives `report.csv.csv`.
   */
  lemma TypedNameGetsExtensionAgain(name: string, inputPath: string, extension: string)
    ensures name + extension != "" ==> OutputName(name + extension, inputPath, extension) == name + extension + extension
    ensures OutputName("report.csv", inputPath, ".csv") == "report.csv.csv"
  {
  }
}

=== FILE: shell.dfy ===
/**
 The interactive loop `main` of app.py (lines 170-224) as a pure function
 from the events the user and the environment supply to the actions the
 program takes. The session variables `INPUT_PATH`, `OUTPUT_DIR`,
 `FILETYPES` and `EXTENSION` are carried in the stage instead of globals.
 */
module Shell {
  import opened Menu
  import opened Paths

  /** What a file or directory dialog gives back. */
  datatype DialogResult = Picked(path: string) | DialogFailed

  datatype Event =
    | Typed(line: string)                     // a line read by `input()`
    | FileDialog(result: DialogResult)
    | DirectoryDialog(result: DialogResult)
    | PreviewOutcome(loaded: bool)            // the preview load raised or not
    | ConversionOutcome(succeeded: bool)      // the callback raised or not

  /** The loader `main` uses to count the records before converting. */
  datatype Loader = JsonLoader | CsvLoader | ExcelLoader

  datatype Action =
    | ShowMenu
    | SayGoodbye
    | InvalidChoice
    | OpenFileDialog(filters: FieldValue)
    | FileDialogError
    | NoFileSelected
    | OpenDirectoryDialog
    | NoDirectorySelected
    | AskOutputName
    | LoadPreview(loader: Loader, input: string)
    | LoadFailed
    | Convert(conversion: Conversion, input: string, output: OutputPath)
    | ConversionDone(output: OutputPath)
    | ConversionFailed

  /** Where the loop waits for its next event. */
  datatype Stage =
    | AtMenu
    | ChoosingFile(sel: Selection)
    | ChoosingDirectory(sel: Selection, input: string)
    | NamingOutput(sel: Selection, input: string, directory: string)
    | Previewing(sel: Selection, input: string, output: OutputPath)
    | Converting(output: OutputPath)

  datatype Halt =
    | Exited                 // choice 7
    | Crashed(error: Uncaught)
    | OutOfInput             // the events ran out while the loop waited
    | UnexpectedEvent        // the next event is not what the loop waits for

  datatype Outcome = Outcome(trace: seq<Action>, halt: Halt)

  datatype StepResult =
    | Next(actions: seq<Action>, stage: Stage)
    | Stop(actions: seq<Action>, halt: Halt)

  /** How the preview step picks its loader. */
  datatype PreviewPolicy =
    | ByChoiceNumber   // app.py:208: JSON for choices 1 and 2, CSV for every other choice
    | BySourceFormat   // the loader of the callback's source format

  datatype Program = Program(menu: MenuTable, preview: PreviewPolicy)

  /** The program as written. */
  const AsWritten: Program := Program(ProgramMenu, ByChoiceNumber)

  /** The program with entry 5 normalised and previews read in the input's own format. */
  const Corrected: Program := Program(NormalizedMenu, BySourceFormat)

  function LoaderOf(f: Format): Loader {
    match f
    case Json => JsonLoader
    case Xlsx => ExcelLoader
    case Csv => CsvLoader
  }

  function PreviewLoader(policy: PreviewPolicy, sel: Selection): Loader {
    match policy
    case ByChoiceNumber =>
      if sel.choice in ["1", "2"] then JsonLoader else CsvLoader
    case BySourceFormat =>
      match ConversionOf(sel.entry)
      case Some(c) => LoaderOf(c.source)
      case None => CsvLoader
  }

  /** Back to the top of the loop, which prints the menu again. */
  function BackToMenu(actions: seq<Action>): StepResult {
    Next(actions + [ShowMenu], AtMenu)
  }

  /** One event of the loop: the actions it causes, up to the next wait. */
  function Step(prog: Program, stage: Stage, ev: Event): StepResult
  {
    match stage
    case AtMenu =>
      if !ev.Typed? then Stop([], UnexpectedEvent)
      else if ev.line == ExitChoice then Stop([SayGoodbye], Exited)
      else if ev.line !in ConversionChoices then BackToMenu([InvalidChoice])
      else (
        match SelectEntry(prog.menu, ev.line)
        case Err(e) => Stop([], Crashed(e))
        case Ok(sel) => Next([OpenFileDialog(sel.filters)], ChoosingFile(sel)))
    case ChoosingFile(sel) =>
      if !ev.FileDialog? then Stop([], UnexpectedEvent)
      else (
        match ev.result
        case DialogFailed => BackToMenu([FileDialogError, NoFileSelected])
        case Picked(p) =>
          if p == "" then BackToMenu([NoFileSelected])
          else Next([OpenDirectoryDialog], ChoosingDirectory(sel, p)))
    case ChoosingDirectory(sel, input) =>
      if !ev.DirectoryDialog? then Stop([], UnexpectedEvent)
      else (
        match ev.result
        case DialogFailed => Stop([], Crashed(DirectoryDialogFailed))
        case Picked(d) =>
          if d == "" then BackToMenu([NoDirectorySelected])
          else Next([AskOutputName], NamingOutput(sel, input, d)))
    case NamingOutput(sel, input, dir) =>
      if !ev.Typed? then Stop([], UnexpectedEvent)
      else if !sel.extension.Text? then Stop([], Crashed(TypeError))
      else
        var out := OutputPath(dir, OutputName(ev.line, input, sel.extension.text));
        Next([LoadPreview(PreviewLoader(prog.preview, sel), input)], Previewing(sel, input, out))
    case Previewing(sel, input, out) =>
      if !ev.PreviewOutcome? then Stop([], UnexpectedEvent)
      else if !ev.loaded then BackToMenu([LoadFailed])
      else (
        match ConversionOf(sel.entry)
        case None => BackToMenu([ConversionFailed])
        case Some(c) => Next([Convert(c, input, out)], Converting(out)))
    case Converting(out) =>
      if !ev.ConversionOutcome? then Stop([], UnexpectedEvent)
      else if ev.succeeded then BackToMenu([ConversionDone(out)])
      else BackToMenu([ConversionFailed])
  }

  function Prepend(actions: seq<Action>, o: Outcome): Outcome {
    Outcome(actions + o.trace, o.halt)
  }

  /** The loop from `stage` on, consuming `events` in order. */
  function RunFrom(prog: Program, stage: Stage, events: seq<Event>): Outcome
    decreases |events|
  {
    if |events| == 0 then Outcome([], OutOfInput)
    else
      match Step(prog, stage, events[0])
      case Stop(actions, halt) => Outcome(actions, halt)
      case Next(actions, next) => Prepend(actions, RunFrom(prog, next, events[1..]))
  }

  /** `main`: the menu is printed, then the loop runs. */
  function Run(prog: Program, events: seq<Event>): Outcome {
    Prepend([ShowMenu], RunFrom(prog, AtMenu, events))
  }

  // ---------------------------------------------------------------------------
  // One round of the loop

  /** Choice 7 ends the loop; whatever events follow are never read. */
  lemma ExitEndsLoop(prog: Program, rest: seq<Event>)
    ensures RunFrom(prog, AtMenu, [Typed(ExitChoice)] + rest) == Outcome([SayGoodbye], Exited)
  {
  }

  /**
   A choice other than 1-7 shows an error and returns to the menu without
   opening a dialog or converting anything.
   */
  lemma InvalidChoiceReturnsToMenu(prog: Program, choice: string, rest: seq<Event>)
    requires choice != ExitChoice && choice !in ConversionChoices
    ensures RunFrom(prog, AtMenu, [Typed(choice)] + rest)
            == Prepend([InvalidChoice, ShowMenu], RunFrom(prog, AtMenu, rest))
  {
    assert ([Typed(choice)] + rest)[1..] == rest;
  }

  /** Cancelling the file dialog returns to the menu; the directory dialog is not opened. */
  lemma CancelledFileReturnsToMenu(prog: Program, sel: Selection, rest: seq<Event>)
    ensures RunFrom(prog, ChoosingFile(sel), [FileDialog(Picked(""))] + rest)
            == Prepend([NoFileSelected, ShowMenu], RunFrom(prog, AtMenu, rest))
    ensures RunFrom(prog, ChoosingFile(sel), [FileDialog(DialogFailed)] + rest)
            == Prepend([FileDialogError, NoFileSelected, ShowMenu], RunFrom(prog, AtMenu, rest))
  {
    assert ([FileDialog(Picked(""))] + rest)[1..] == rest;
    assert ([FileDialog(DialogFailed)] + rest)[1..] == rest;
  }

  /**
   Cancelling the directory dialog returns to the menu without converting;
   a failing directory dialog is not caught and ends the program.
   */
  lemma CancelledDirectoryReturnsToMenu(prog: Program, sel: Selection, input: string, rest: seq<Event>)
    ensures RunFrom(prog, ChoosingDirectory(sel, input), [DirectoryDialog(Picked(""))] + rest)
            == Prepend([NoDirectorySelected, ShowMenu], RunFrom(prog, AtMenu, rest))
    ensures RunFrom(prog, ChoosingDirectory(sel, input), [DirectoryDialog(DialogFailed)] + rest)
            == Outcome([], Crashed(DirectoryDialogFailed))
  {
    assert ([DirectoryDialog(Picked(""))] + rest)[1..] == rest;
  }

  /** A preview that fails to load skips the conversion; the loop goes on. */
  lemma PreviewFailureSkipsConversion(prog: Program, sel: Selection, input: string, out: OutputPath, rest: seq<Event>)
    ensures RunFrom(prog, Previewing(sel, input, out), [PreviewOutcome(false)] + rest)
            == Prepend([LoadFailed, ShowMenu], RunFrom(prog, AtMenu, rest))
  {
    assert ([PreviewOutcome(false)] + rest)[1..] == rest;
  }

  /** A failed conversion is reported and the loop goes on. */
  lemma ConversionFailureContinues(prog: Program, out: OutputPath, rest: seq<Event>)
    ensures RunFrom(prog, Converting(out), [ConversionOutcome(false)] + rest)
            == Prepend([ConversionFailed, ShowMenu], RunFrom(prog, AtMenu, rest))
  {
    assert ([ConversionOutcome(false)] + rest)[1..] == rest;
  }

  /** The six events of a round that ends in a conversion. */
  function RoundEvents(choice: string, input: string, dir: string, typed: string, converted: bool): seq<Event> {
    [Typed(choice), FileDialog(Picked(input)), DirectoryDialog(Picked(dir)),
     Typed(typed), PreviewOutcome(true), ConversionOutcome(converted)]
  }

  /** A step that does not stop hands the remaining events to the next stage. */
  lemma RunFromNext(prog: Program, stage: Stage, ev: Event, rest: seq<Event>)
    requires Step(prog, stage, ev).Next?
    ensures RunFrom(prog, stage, [ev] + rest)
            == Prepend(Step(prog, stage, ev).actions, RunFrom(prog, Step(prog, stage, ev).stage, rest))
  {
    assert ([ev] + rest)[1..] == rest;
  }

  lemma PrependTwice(a: seq<Action>, b: seq<Action>, o: Outcome)
    ensures Prepend(a, Prepend(b, o)) == Prepend(a + b, o)
  {
    assert a + (b + o.trace) == (a + b) + o.trace;
  }

  /**
   A full round: the chosen entry's filter, the preview, then the entry's
   callback on the picked file and the derived output path; after it the
   loop is back at the menu.
   */
  lemma ConversionRound(prog: Program, choice: string, input: string, dir: string, typed: string,
                        converted: bool, rest: seq<Event>)
    requires choice in ConversionChoices && input != "" && dir != ""
    requires SelectEntry(prog.menu, choice).Ok?
    requires SelectEntry(prog.menu, choice).value.extension.Text?
    requires ConversionOf(prog.menu[choice]).Some?
    ensures var sel := SelectEntry(prog.menu, choice).value;
            var out := OutputPath(dir, OutputName(typed, input, sel.extension.text));
            RunFrom(prog, AtMenu, RoundEvents(choice, input, dir, typed, converted) + rest)
            == Prepend([OpenFileDialog(sel.filters), OpenDirectoryDialog, AskOutputName,
                        LoadPreview(PreviewLoader(prog.preview, sel), input),
                        Convert(ConversionOf(prog.menu[choice]).value, input, out),
                        if converted then ConversionDone(out) else ConversionFailed, ShowMenu],
                       RunFrom(prog, AtMenu, rest))
  {
    var sel := SelectEntry(prog.menu, choice).value;
    var out := OutputPath(dir, OutputName(typed, input, sel.extension.text));
    var c := ConversionOf(prog.menu[choice]).value;
    MenuStep(prog, choice);
    DialogSteps(prog, sel, input, dir);
    NamingStep(prog, sel, input, dir, typed);
    PreviewStep(prog, sel, input, out);
    ConvertStep(prog, out, converted);
    RoundRuns(prog, sel, input, dir, typed, converted, out, rest,
              OpenFileDialog(sel.filters), OpenDirectoryDialog, AskOutputName,
              LoadPreview(PreviewLoader(prog.preview, sel), input), Convert(c, input, out),
              if converted then ConversionDone(out) else ConversionFailed);
  }

  lemma MenuStep(prog: Program, choice: string)
    requires choice in ConversionChoices && SelectEntry(prog.menu, choice).Ok?
    ensures var sel := SelectEntry(prog.menu, choice).value;
            Step(prog, AtMenu, Typed(choice)) == Next([OpenFileDialog(sel.filters)], ChoosingFile(sel))
  {
  }

  lemma DialogSteps(prog: Program, sel: Selection, input: string, dir: string)
    requires input != "" && dir != ""
    ensures Step(prog, ChoosingFile(sel), FileDialog(Picked(input)))
            == Next([OpenDirectoryDialog], ChoosingDirectory(sel, input))
    ensures Step(prog, ChoosingDirectory(sel, input), DirectoryDialog(Picked(dir)))
            == Next([AskOutputName], NamingOutput(sel, input, dir))
  {
  }

  lemma NamingStep(prog: Program, sel: Selection, input: string, dir: string, typed: string)
    requires sel.extension.Text?
    ensures var out := OutputPath(dir, OutputName(typed, input, sel.extension.text));
            Step(prog, NamingOutput(sel, input, dir), Typed(typed))
            == Next([LoadPreview(PreviewLoader(prog.preview, sel), input)], Previewing(sel, input, out))
  {
  }

  lemma PreviewStep(prog: Program, sel: Selection, input: string, out: OutputPath)
    requires ConversionOf(sel.entry).Some?
    ensures Step(prog, Previewing(sel, input, out), PreviewOutcome(true))
            == Next([Convert(ConversionOf(sel.entry).value, input, out)], Converting(out))
  {
  }

  lemma ConvertStep(prog: Program, out: OutputPath, converted: bool)
    ensures Step(prog, Converting(out), ConversionOutcome(converted))
            == Next([if converted then ConversionDone(out) else ConversionFailed, ShowMenu], AtMenu)
  {
  }

  /** Chains the six steps of a round; the steps themselves are given. */
  lemma RoundRuns(prog: Program, sel: Selection, input: string, dir: string, typed: string, converted: bool,
                  out: OutputPath, rest: seq<Event>, x1: Action, x2: Action, x3: Action,
                  x4: Action, x5: Action, x6: Action)
    requires Step(prog, AtMenu, Typed(sel.choice)) == Next([x1], ChoosingFile(sel))
    requires Step(prog, ChoosingFile(sel), FileDialog(Picked(input))) == Next([x2], ChoosingDirectory(sel, input))
    requires Step(prog, ChoosingDirectory(sel, input), DirectoryDialog(Picked(dir))) == Next([x3], NamingOutput(sel, input, dir))
    requires Step(prog, NamingOutput(sel, input, dir), Typed(typed)) == Next([x4], Previewing(sel, input, out))
    requires Step(prog, Previewing(sel, input, out), PreviewOutcome(true)) == Next([x5], Converting(out))
    requires Step(prog, Converting(out), ConversionOutcome(converted)) == Next([x6, ShowMenu], AtMenu)
    ensures RunFrom(prog, AtMenu, RoundEvents(sel.choice, input, dir, typed, converted) + rest)
            == Prepend([x1, x2, x3, x4, x5, x6, ShowMenu], RunFrom(prog, AtMenu, rest))
  {
    var e := RoundEvents(sel.choice, input, dir, typed, converted);
    var r5 := [e[5]] + rest;
    var r4 := [e[4]] + r5;
    var r3 := [e[3]] + r4;
    var r2 := [e[2]] + r3;
    var r1 := [e[1]] + r2;
    assert e + rest == [e[0]] + r1;
    RunFromNext(prog, AtMenu, e[0], r1);
    RunFromNext(prog, ChoosingFile(sel), e[1], r2);
    RunFromNext(prog, ChoosingDirectory(sel, input), e[2], r3);
    RunFromNext(prog, NamingOutput(sel, input, dir), e[3], r4);
    RunFromNext(prog, Previewing(sel, input, out), e[4], r5);
    RunFromNext(prog, Converting(out), e[5], rest);
    var o := RunFrom(prog, AtMenu, rest);
    PrependTwice([x5], [x6, ShowMenu], o);
    PrependTwice([x4], [x5] + [x6, ShowMenu], o);
    PrependTwice([x3], [x4] + ([x5] + [x6, ShowMenu]), o);
    PrependTwice([x2], [x3] + ([x4] + ([x5] + [x6, ShowMenu])), o);
    PrependTwice([x1], [x2] + ([x3] + ([x4] + ([x5] + [x6, ShowMenu]))), o);
    RoundTrace(x1, x2, x3, x4, x5, x6);
  }

  lemma RoundTrace(x1: Action, x2: Action, x3: Action, x4: Action, x5: Action, x6: Action)
    ensures [x1] + ([x2] + ([x3] + ([x4] + ([x5] + [x6, ShowMenu])))) == [x1, x2, x3, x4, x5, x6, ShowMenu]
  {
  }

  // ---------------------------------------------------------------------------
  // Properties of every run

  /** The loop reports `Exited` only after reading the exit choice at the menu, and then reads nothing more. */
  lemma {:induction false} ExitOnlyBySeven(prog: Program, stage: Stage, events: seq<Event>)
    requires RunFrom(prog, stage, events).halt == Exited
    ensures exists i :: 0 <= i < |events| && ExitsAt(prog, stage, events, i)
    decreases |events|
  {
    if |events| > 0 {
      match Step(prog, stage, events[0])
      case Stop(actions, halt) =>
        StepExits(prog, stage, events[0]);
        StopRunsNoFurther(prog, stage, events);
        assert ExitsAt(prog, stage, events, 0);
      case Next(actions, next) =>
        ExitOnlyBySeven(prog, next, events[1..]);
        var i :| 0 <= i < |events[1..]| && ExitsAt(prog, next, events[1..], i);
        ExitsAtLater(prog, stage, events, next, i);
    }
  }

  /**
   The stage in which the loop reads `events[n]`, when it is still running
   after the first `n` events.
   */
  function StageAt(prog: Program, stage: Stage, events: seq<Event>, n: nat): Option<Stage>
    decreases n
  {
    if n == 0 then Some(stage)
    else if |events| == 0 then None
    else
      match Step(prog, stage, events[0])
      case Stop(_, _) => None
      case Next(_, next) => StageAt(prog, next, events[1..], n - 1)
  }

  /**
   The run ends at `events[i]`: it is the exit choice, read at the menu,
   the run says goodbye last, and the events after it are never read.
   */
  ghost predicate ExitsAt(prog: Program, stage: Stage, events: seq<Event>, i: nat)
    requires i < |events|
  {
    && events[i] == Typed(ExitChoice)
    && StageAt(prog, stage, events, i) == Some(AtMenu)
    && var o := RunFrom(prog, stage, events);
       && o.halt == Exited
       && |o.trace| > 0 && o.trace[|o.trace| - 1] == SayGoodbye
       && o == RunFrom(prog, stage, events[..i + 1])
  }

  /** The loop stops with `Exited` only on the exit choice typed at the menu. */
  lemma StepExits(prog: Program, stage: Stage, ev: Event)
    requires Step(prog, stage, ev).Stop? && Step(prog, stage, ev).halt == Exited
    ensures stage == AtMenu && ev == Typed(ExitChoice)
    ensures Step(prog, stage, ev).actions == [SayGoodbye]
  {
  }

  /** A run that stops on its first event reads nothing after it. */
  lemma StopRunsNoFurther(prog: Program, stage: Stage, events: seq<Event>)
    requires |events| > 0 && Step(prog, stage, events[0]).Stop?
    ensures RunFrom(prog, stage, events) == RunFrom(prog, stage, events[..1])
  {
    assert events[..1][0] == events[0];
  }

  /** An exit found after the first step is an exit of the whole run. */
  lemma ExitsAtLater(prog: Program, stage: Stage, events: seq<Event>, next: Stage, i: nat)
    requires |events| > 0 && Step(prog, stage, events[0]) == Next(Step(prog, stage, events[0]).actions, next)
    requires i < |events| - 1 && ExitsAt(prog, next, events[1..], i)
    ensures ExitsAt(prog, stage, events, i + 1)
  {
    var actions := Step(prog, stage, events[0]).actions;
    var prefix := events[..i + 2];
    assert prefix[0] == events[0];
    assert prefix[1..] == events[1..][..i + 1];
    assert events[i + 1] == events[1..][i];
  }

  /** Session state as `main` holds it at each wait: paths are set once their dialog returned one. */
  ghost predicate SessionOk(stage: Stage) {
    match stage
    case AtMenu => true
    case ChoosingFile(_) => true
    case ChoosingDirectory(_, input) => input != ""
    case NamingOutput(_, input, dir) => input != "" && dir != ""
    case Previewing(_, input, out) => input != "" && out.directory != ""
    case Converting(out) => out.directory != ""
  }

  ghost predicate ConvertsPickedFiles(trace: seq<Action>) {
    forall i :: 0 <= i < |trace| && trace[i].Convert? ==>
      trace[i].input != "" && trace[i].output.directory != ""
  }

  /** One step keeps the session state and converts only picked paths. */
  lemma StepKeepsSession(prog: Program, stage: Stage, ev: Event)
    requires SessionOk(stage)
    ensures ConvertsPickedFiles(Step(prog, stage, ev).actions)
    ensures Step(prog, stage, ev).Next? ==> SessionOk(Step(prog, stage, ev).stage)
  {
  }

  /**
   A callback is only ever invoked on a picked input file and a picked
   output directory: cancelling either dialog never reaches a conversion.
   */
  lemma {:induction false} ConversionNeedsPickedPaths(prog: Program, stage: Stage, events: seq<Event>)
    requires SessionOk(stage)
    ensures ConvertsPickedFiles(RunFrom(prog, stage, events).trace)
    decreases |events|
  {
    if |events| > 0 {
      StepKeepsSession(prog, stage, events[0]);
      match Step(prog, stage, events[0])
      case Stop(actions, halt) =>
      case Next(actions, next) =>
        ConversionNeedsPickedPaths(prog, next, events[1..]);
        var rest := RunFrom(prog, next, events[1..]).trace;
        forall i | 0 <= i < |actions + rest| && (actions + rest)[i].Convert?
          ensures (actions + rest)[i].input != "" && (actions + rest)[i].output.directory != ""
        {
          if i < |actions| {
            assert (actions + rest)[i] == actions[i];
          } else {
            assert (actions + rest)[i] == rest[i - |actions|];
          }
        }
    }
  }

  /**
   The paths a stage holds came from dialog results among the events `seen`
   so far: the input from the file dialog, the directory from the directory
   dialog.
   */
  ghost predicate PathsFromDialogs(stage: Stage, seen: seq<Event>) {
    match stage
    case AtMenu => true
    case ChoosingFile(_) => true
    case ChoosingDirectory(_, input) => FileDialog(Picked(input)) in seen
    case NamingOutput(_, input, dir) =>
      FileDialog(Picked(input)) in seen && DirectoryDialog(Picked(dir)) in seen
    case Previewing(_, input, out) =>
      FileDialog(Picked(input)) in seen && DirectoryDialog(Picked(out.directory)) in seen
    case Converting(out) => DirectoryDialog(Picked(out.directory)) in seen
  }

  ghost predicate ConvertsDialogPaths(trace: seq<Action>, events: seq<Event>) {
    forall i :: 0 <= i < |trace| && trace[i].Convert? ==>
      && FileDialog(Picked(trace[i].input)) in events
      && DirectoryDialog(Picked(trace[i].output.directory)) in events
  }

  /** One step converts only dialog paths and keeps the stage's paths traceable to dialogs. */
  lemma StepUsesDialogPaths(prog: Program, stage: Stage, seen: seq<Event>, ev: Event)
    requires PathsFromDialogs(stage, seen)
    ensures ConvertsDialogPaths(Step(prog, stage, ev).actions, seen + [ev])
    ensures Step(prog, stage, ev).Next? ==> PathsFromDialogs(Step(prog, stage, ev).stage, seen + [ev])
  {
  }

  /**
   Every conversion of a run is given the very input path a file dialog
   returned and the very directory a directory dialog returned, before it.
   */
  lemma {:induction false} ConversionUsesDialogPaths(prog: Program, stage: Stage, seen: seq<Event>, events: seq<Event>)
    requires PathsFromDialogs(stage, seen)
    ensures ConvertsDialogPaths(RunFrom(prog, stage, events).trace, seen + events)
    decreases |events|
  {
    if |events| > 0 {
      StepUsesDialogPaths(prog, stage, seen, events[0]);
      assert seen + events == (seen + [events[0]]) + events[1..];
      match Step(prog, stage, events[0])
      case Stop(actions, halt) =>
        forall e | e in seen + [events[0]] ensures e in seen + events {
        }
      case Next(actions, next) =>
        ConversionUsesDialogPaths(prog, next, seen + [events[0]], events[1..]);
        var rest := RunFrom(prog, next, events[1..]).trace;
        forall i | 0 <= i < |actions + rest| && (actions + rest)[i].Convert?
          ensures FileDialog(Picked((actions + rest)[i].input)) in seen + events
          ensures DirectoryDialog(Picked((actions + rest)[i].output.directory)) in seen + events
        {
          if i < |actions| {
            assert (actions + rest)[i] == actions[i];
          } else {
            assert (actions + rest)[i] == rest[i - |actions|];
          }
        }
    }
  }

  /** In a whole run of `main`, each conversion's input and directory are among the dialog results. */
  lemma RunConvertsDialogPaths(prog: Program, events: seq<Event>)
    ensures ConvertsDialogPaths(Run(prog, events).trace, events)
  {
    ConversionUsesDialogPaths(prog, AtMenu, [], events);
    assert [] + events == events;
    var rest := RunFrom(prog, AtMenu, events).trace;
    assert Run(prog, events).trace == [ShowMenu] + rest;
    forall i | 0 <= i < |[ShowMenu] + rest| && ([ShowMenu] + rest)[i].Convert?
      ensures FileDialog(Picked(([ShowMenu] + rest)[i].input)) in events
      ensures DirectoryDialog(Picked(([ShowMenu] + rest)[i].output.directory)) in events
    {
      assert ([ShowMenu] + rest)[i] == rest[i - 1];
    }
  }

  /** Every conversion is announced by a preview load of the same input just before it. */
  ghost predicate PreviewedBeforeConvert(stage: Stage, trace: seq<Action>) {
    && (|trace| > 0 && trace[0].Convert? ==> stage.Previewing? && stage.input == trace[0].input)
    && forall i :: 1 <= i < |trace| && trace[i].Convert? ==>
         trace[i - 1].LoadPreview? && trace[i - 1].input == trace[i].input
  }

  /**
   One step converts only from the preview stage, and it enters that stage
   only with a preview load of the same input as its last action.
   */
  lemma StepPreviews(prog: Program, stage: Stage, ev: Event)
    ensures PreviewedBeforeConvert(stage, Step(prog, stage, ev).actions)
    ensures var st := Step(prog, stage, ev);
            st.Next? ==> |st.actions| > 0
                         && (st.stage.Previewing? ==> st.actions[|st.actions| - 1] == LoadPreview(PreviewLoader(prog.preview, st.stage.sel), st.stage.input))
  {
  }

  /**
   The callback runs only after the preview load of the same file
   succeeded: a conversion always directly follows its preview.
   */
  lemma {:induction false} ConversionFollowsPreview(prog: Program, stage: Stage, events: seq<Event>)
    ensures PreviewedBeforeConvert(stage, RunFrom(prog, stage, events).trace)
    decreases |events|
  {
    if |events| > 0 {
      StepPreviews(prog, stage, events[0]);
      match Step(prog, stage, events[0])
      case Stop(actions, halt) =>
      case Next(actions, next) =>
        ConversionFollowsPreview(prog, next, events[1..]);
        var rest := RunFrom(prog, next, events[1..]).trace;
        var t := actions + rest;
        forall i | 1 <= i < |t| && t[i].Convert?
          ensures t[i - 1].LoadPreview? && t[i - 1].input == t[i].input
        {
          if i < |actions| {
            assert t[i] == actions[i];
            assert t[i - 1] == actions[i - 1];
          } else if i > |actions| {
            assert t[i] == rest[i - |actions|];
            assert t[i - 1] == rest[i - 1 - |actions|];
          } else {
            assert t[i] == rest[0];
            assert t[i - 1] == actions[|actions| - 1];
          }
        }
        assert t[0] == actions[0];
    }
  }

  /** Every stage reachable in the corrected program holds a text output extension. */
  ghost predicate CorrectedStage(stage: Stage) {
    match stage
    case ChoosingFile(sel) => sel.extension.Text?
    case ChoosingDirectory(sel, _) => sel.extension.Text?
    case NamingOutput(sel, _, _) => sel.extension.Text?
    case Previewing(sel, _, _) => sel.extension.Text?
    case _ => true
  }

  /** One corrected step keeps a text extension and crashes only on the directory dialog. */
  lemma CorrectedStep(stage: Stage, ev: Event)
    requires CorrectedStage(stage)
    ensures var st := Step(Corrected, stage, ev);
            && (st.Next? ==> CorrectedStage(st.stage))
            && (st.Stop? && st.halt.Crashed? ==> st.halt.error == DirectoryDialogFailed)
  {
    if stage.AtMenu? && ev.Typed? && ev.line in ConversionChoices {
      NormalizedMenuLookup(ev.line);
    }
  }

  /**
   The corrected program never stops on a `KeyError` or `TypeError`: the
   only uncaught failure left is a directory dialog that cannot open.
   */
  lemma {:induction false} CorrectedNeverMissesAKey(stage: Stage, events: seq<Event>)
    requires CorrectedStage(stage)
    ensures RunFrom(Corrected, stage, events).halt.Crashed? ==>
              RunFrom(Corrected, stage, events).halt.error == DirectoryDialogFailed
    decreases |events|
  {
    if |events| > 0 {
      CorrectedStep(stage, events[0]);
      match Step(Corrected, stage, events[0])
      case Stop(actions, halt) =>
      case Next(actions, next) =>
        CorrectedNeverMissesAKey(next, events[1..]);
    }
  }

  // ---------------------------------------------------------------------------
  // The program as written

  /**
   Choosing 5 ends the program: entry 5 has no `inputFileType` key and the
   lookup sits outside any `try`.
   */
  lemma ChoiceFiveCrashes(rest: seq<Event>)
    ensures Run(AsWritten, [Typed("5")] + rest) == Outcome([ShowMenu], Crashed(KeyError("inputFileType")))
  {
    ProgramMenuLookup("5");
  }

  /** In the corrected program choice 5 opens the CSV file dialog instead. */
  lemma ChoiceFiveCorrected(rest: seq<Event>)
    ensures RunFrom(Corrected, AtMenu, [Typed("5")] + rest)
            == Prepend([OpenFileDialog(Filters([FilterFor(Csv)]))],
                       RunFrom(Corrected, ChoosingFile(SelectEntry(NormalizedMenu, "5").value), rest))
  {
    NormalizedMenuLookup("5");
    assert ([Typed("5")] + rest)[1..] == rest;
  }

  /**
   As written, choices 1 and 2 preview through the JSON loader and every
   other conversion choice, the XLSX ones 3 and 4 included, through the
   CSV loader, although the file dialog of 3 and 4 offers `*.xlsx` files.
   */
  lemma AsWrittenPreviewLoader(choice: string)
    requires choice in ConversionChoices && choice != "5"
    ensures var sel := SelectEntry(ProgramMenu, choice).value;
            && (PreviewLoader(ByChoiceNumber, sel) == JsonLoader <==> choice in ["1", "2"])
            && (PreviewLoader(ByChoiceNumber, sel) == CsvLoader <==> choice !in ["1", "2"])
    ensures choice in ["3", "4"] ==>
              SelectEntry(ProgramMenu, choice).value.filters == Filters([FileFilter("XLSX files", "*.xlsx")])
  {
    ProgramMenuLookup(choice);
    assert Pattern(Xlsx) == "*.xlsx";
  }

  /** In the corrected program every preview reads the format the file dialog offered. */
  lemma CorrectedPreviewMatchesFilter(choice: string)
    requires choice in ConversionChoices
    ensures SelectEntry(NormalizedMenu, choice).Ok?
    ensures var sel := SelectEntry(NormalizedMenu, choice).value;
            && ConversionOf(sel.entry).Some?
            && var c := ConversionOf(sel.entry).value;
            && sel.filters == Filters([FilterFor(c.source)])
            && PreviewLoader(BySourceFormat, sel) == LoaderOf(c.source)
  {
    NormalizedMenuLookup(choice);
    ConsistentEntryPreview(NormalizedMenu, choice);
  }

  lemma ConsistentEntryPreview(menu: MenuTable, choice: string)
    requires SelectEntry(menu, choice).Ok? && Consistent(menu[choice]) && ConversionOf(menu[choice]).Some?
    ensures var sel := SelectEntry(menu, choice).value;
            var c := ConversionOf(sel.entry).value;
            && sel.filters == Filters([FilterFor(c.source)])
            && PreviewLoader(BySourceFormat, sel) == LoaderOf(c.source)
  {
  }
}

=== FILE: text_lines.dfy ===
/**
 The pieces of Python's `str` behaviour that the cell normaliser relies on:
 `str.isspace` (the characters `str.strip()` removes), the line boundaries of
 `str.splitlines`, `str.strip`, `'\n'.join` and `str.split('\n')`.
 */
module TextLines {

  /** A character Python's `str.isspace` accepts, i.e. one `str.strip()` removes. */
  predicate IsSpace(c: char) {
    || ('\U{9}' <= c <= '\U{D}')
    || ('\U{1C}' <= c <= '\U{20}')
    || c == '\U{85}' || c == '\U{A0}' || c == '\U{1680}'
    || ('\U{2000}' <= c <= '\U{200A}')
    || c == '\U{2028}' || c == '\U{2029}' || c == '\U{202F}'
    || c == '\U{205F}' || c == '\U{3000}'
  }

  /** A character at which `str.splitlines` ends a line (`\r\n` is handled by BreakLength). */
  predicate IsLineBreak(c: char) {
    || c == '\n' || c == '\r'
    || c == '\U{B}' || c == '\U{C}'
    || c == '\U{1C}' || c == '\U{1D}' || c == '\U{1E}'
    || c == '\U{85}' || c == '\U{2028}' || c == '\U{2029}'
  }

  ghost predicate NoLineBreak(s: string) {
    forall k :: 0 <= k < |s| ==> !IsLineBreak(s[k])
  }

  ghost predicate NoNewline(s: string) {
    forall k :: 0 <= k < |s| ==> s[k] != '\n'
  }

  ghost predicate AllSpace(s: string) {
    forall k :: 0 <= k < |s| ==> IsSpace(s[k])
  }

  /** Neither end of `s` is a whitespace character. */
  ghost predicate Stripped(s: string) {
    |s| > 0 ==> !IsSpace(s[0]) && !IsSpace(s[|s| - 1])
  }

  /** Every line break is also whitespace, so `strip` can remove it. */
  lemma LineBreakIsSpace(c: char)
    ensures IsLineBreak(c) ==> IsSpace(c)
  {
  }

  /** Index of the first line-break character of `s`, or `|s|` if there is none. */
  function FirstBreak(s: string): (r: nat)
    ensures r <= |s|
    ensures forall k :: 0 <= k < r ==> !IsLineBreak(s[k])
    ensures r < |s| ==> IsLineBreak(s[r])
  {
    if |s| == 0 || IsLineBreak(s[0]) then 0 else 1 + FirstBreak(s[1..])
  }

  /** Length of the terminator at `i`: a `\r` directly followed by `\n` is one terminator of two. */
  function BreakLength(s: string, i: nat): (n: nat)
    requires i < |s|
    ensures n == 1 || n == 2
    ensures i + n <= |s|
  {
    if s[i] == '\r' && i + 1 < |s| && s[i + 1] == '\n' then 2 else 1
  }

  /**
   `str.splitlines()`: the lines of `s` without their terminators. A final
   terminator does not start an extra empty line, and `""` has no lines.
   */
  function SplitLines(s: string): (r: seq<string>)
    ensures |r| == 0 <==> |s| == 0
    ensures forall i :: 0 <= i < |r| ==> NoLineBreak(r[i])
    ensures |r| <= |s|
    decreases |s|
  {
    if |s| == 0 then []
    else
      var i := FirstBreak(s);
      if i == |s| then [s]
      else [s[..i]] + SplitLines(s[i + BreakLength(s, i)..])
  }

  /** One step of SplitLines, for `s` whose first line break is at `i`. */
  lemma SplitLinesAt(s: string, i: nat)
    requires i < |s| && IsLineBreak(s[i])
    requires forall k :: 0 <= k < i ==> !IsLineBreak(s[k])
    ensures SplitLines(s) == [s[..i]] + SplitLines(s[i + BreakLength(s, i)..])
  {
    FirstBreakUnique(s, i);
  }

  /** A non-empty `s` without line breaks is one line. */
  lemma SplitLinesSingle(s: string)
    requires |s| > 0 && NoLineBreak(s)
    ensures SplitLines(s) == [s]
  {
    FirstBreakUnique(s, |s|);
  }

  /** A first line ended by `'\n'` comes off the front of SplitLines. */
  lemma SplitLinesCons(a: string, rest: string)
    requires NoLineBreak(a)
    ensures SplitLines(a + "\n" + rest) == [a] + SplitLines(rest)
  {
    var s := a + "\n" + rest;
    assert forall k :: 0 <= k < |a| ==> s[k] == a[k];
    SplitLinesAt(s, |a|);
    assert s[..|a|] == a;
    assert s[|a| + 1..] == rest;
  }

  /**
   Any terminator other than `'\r'` ends a line on its own. With
   SplitLinesCrLf, SplitLinesLoneCr, SplitLinesSingle and `SplitLines("") == []`
   this fixes SplitLines on every input.
   */
  lemma SplitLinesOtherBreak(a: string, b: char, rest: string)
    requires NoLineBreak(a) && IsLineBreak(b) && b != '\r'
    ensures SplitLines(a + [b] + rest) == [a] + SplitLines(rest)
  {
    var s := a + [b] + rest;
    assert forall k :: 0 <= k < |a| ==> s[k] == a[k];
    assert s[|a|] == b;
    SplitLinesAt(s, |a|);
    assert s[..|a|] == a;
    assert s[|a| + 1..] == rest;
  }

  /** `"\r\n"` is one terminator: no empty line appears between its two characters. */
  lemma SplitLinesCrLf(a: string, rest: string)
    requires NoLineBreak(a)
    ensures SplitLines(a + "\r\n" + rest) == [a] + SplitLines(rest)
  {
    var s := a + "\r\n" + rest;
    assert forall k :: 0 <= k < |a| ==> s[k] == a[k];
    assert s[|a|] == '\r' && s[|a| + 1] == '\n';
    SplitLinesAt(s, |a|);
    assert s[..|a|] == a;
    assert s[|a| + 2..] == rest;
  }

  /** A `'\r'` not followed by `'\n'` ends a line on its own. */
  lemma SplitLinesLoneCr(a: string, rest: string)
    requires NoLineBreak(a)
    requires |rest| == 0 || rest[0] != '\n'
    ensures SplitLines(a + "\r" + rest) == [a] + SplitLines(rest)
  {
    var s := a + "\r" + rest;
    assert forall k :: 0 <= k < |a| ==> s[k] == a[k];
    assert s[|a|] == '\r';
    assert |a| + 1 < |s| ==> s[|a| + 1] == rest[0];
    SplitLinesAt(s, |a|);
    assert s[..|a|] == a;
    assert s[|a| + 1..] == rest;
  }

  /** `str.lstrip()`: drop the leading whitespace. */
  function StripLeading(s: string): (r: string)
    ensures |r| <= |s| && r == s[|s| - |r|..]
    ensures AllSpace(s[..|s| - |r|])
    ensures |r| > 0 ==> !IsSpace(r[0])
  {
    if |s| > 0 && IsSpace(s[0]) then
      var t := s[1..];
      var r := StripLeading(t);
      assert r == s[|s| - |r|..];
      assert AllSpace(s[..|s| - |r|]) by {
        forall k | 0 <= k < |s| - |r| ensures IsSpace(s[k]) {
          if k > 0 { assert s[k] == t[..|t| - |r|][k - 1]; }
        }
      }
      r
    else s
  }

  /** `str.rstrip()`: drop the trailing whitespace. */
  function StripTrailing(s: string): (r: string)
    ensures |r| <= |s| && r == s[..|r|]
    ensures AllSpace(s[|r|..])
    ensures |r| > 0 ==> !IsSpace(r[|r| - 1])
  {
    if |s| > 0 && IsSpace(s[|s| - 1]) then
      var t := s[..|s| - 1];
      var r := StripTrailing(t);
      assert r == s[..|r|];
      assert AllSpace(s[|r|..]) by {
        forall k | 0 <= k < |s| - |r| ensures IsSpace(s[|r|..][k]) {
          if k < |t| - |r| { assert s[|r|..][k] == t[|r|..][k]; }
        }
      }
      r
    else s
  }

  /** `str.strip()`: the result neither starts nor ends with whitespace. */
  function Strip(s: string): (r: string)
    ensures Stripped(r)
  {
    StripTrailing(StripLeading(s))
  }

  /** What `strip` removes is whitespace: `s` is whitespace, then `Strip(s)`, then whitespace. */
  lemma StripFrames(s: string)
    ensures exists i :: 0 <= i <= |s| - |Strip(s)| && Framed(s, i, Strip(s))
  {
    var a := StripLeading(s);
    var r := StripTrailing(a);
    assert r == Strip(s);
    var i := |s| - |a|;
    assert r == s[i..i + |r|];
    assert s[..i] == s[..|s| - |a|];
    assert s[i + |r|..] == a[|r|..];
    assert Framed(s, i, r);
  }

  /** `s` is whitespace, then `r` starting at index `i`, then whitespace. */
  ghost predicate Framed(s: string, i: nat, r: string) {
    && i + |r| <= |s|
    && r == s[i..i + |r|]
    && AllSpace(s[..i])
    && AllSpace(s[i + |r|..])
  }

  /** `'\n'.join(lines)`. */
  function JoinLines(lines: seq<string>): string
  {
    if |lines| == 0 then ""
    else if |lines| == 1 then lines[0]
    else lines[0] + "\n" + JoinLines(lines[1..])
  }

  /** Index of the first `'\n'` of `s`, or `|s|`. */
  function FirstNewline(s: string): (r: nat)
    ensures r <= |s|
    ensures forall k :: 0 <= k < r ==> s[k] != '\n'
    ensures r < |s| ==> s[r] == '\n'
  {
    if |s| == 0 || s[0] == '\n' then 0 else 1 + FirstNewline(s[1..])
  }

  /** `str.split('\n')`: always at least one piece, and no piece holds a `'\n'`. */
  function SplitOnNewline(s: string): (r: seq<string>)
    ensures |r| >= 1
    ensures forall i :: 0 <= i < |r| ==> NoNewline(r[i])
    decreases |s|
  {
    var i := FirstNewline(s);
    if i == |s| then [s] else [s[..i]] + SplitOnNewline(s[i + 1..])
  }

  /** Stripping a piece that has no line break leaves it without line breaks. */
  lemma StripKeepsNoLineBreak(s: string)
    requires NoLineBreak(s)
    ensures NoLineBreak(Strip(s))
  {
    // The framing is all this needs; unfolding the strips again only costs.
    hide StripLeading, StripTrailing;
    var r := Strip(s);
    StripFrames(s);
    var i :| 0 <= i <= |s| - |r| && Framed(s, i, r);
    forall k | 0 <= k < |r| ensures !IsLineBreak(r[k]) {
      assert r[k] == s[i + k];
    }
  }

  /** `strip` is idempotent. */
  lemma StripIdempotent(s: string)
    requires Stripped(s)
    ensures Strip(s) == s
  {
    assert StripLeading(s) == s;
    assert StripTrailing(s) == s;
  }

  /** No pieces join to `""`, and `""` splits into one empty piece: the round trip needs a piece. */
  lemma JoinNoPiecesSplitsToOne()
    ensures JoinLines([]) == ""
    ensures SplitOnNewline(JoinLines([])) == [""]
  {
  }

  /**
   Joining at least one piece without `'\n'` and splitting on `'\n'` gives
   the pieces back; no pieces join to `""`, which splits into one empty piece.
   */
  lemma {:induction false} SplitJoinNewline(lines: seq<string>)
    requires |lines| >= 1
    requires forall i :: 0 <= i < |lines| ==> NoNewline(lines[i])
    ensures SplitOnNewline(JoinLines(lines)) == lines
    decreases |lines|
  {
    var s := JoinLines(lines);
    if |lines| == 1 {
      assert FirstNewline(s) == |s|;
    } else {
      var tail := JoinLines(lines[1..]);
      assert s == lines[0] + "\n" + tail;
      assert FirstNewline(s) == |lines[0]| by {
        assert s[|lines[0]|] == '\n';
        assert forall k :: 0 <= k < |lines[0]| ==> s[k] == lines[0][k];
        FirstNewlineUnique(s, |lines[0]|);
      }
      assert s[..|lines[0]|] == lines[0];
      assert s[|lines[0]| + 1..] == tail;
      SplitJoinNewline(lines[1..]);
      assert lines == [lines[0]] + lines[1..];
    }
  }

  lemma FirstNewlineUnique(s: string, j: nat)
    requires j < |s| && s[j] == '\n'
    requires forall k :: 0 <= k < j ==> s[k] != '\n'
    ensures FirstNewline(s) == j
  {
  }

  lemma FirstBreakUnique(s: string, j: nat)
    requires j <= |s|
    requires j < |s| ==> IsLineBreak(s[j])
    requires forall k :: 0 <= k < j ==> !IsLineBreak(s[k])
    ensures FirstBreak(s) == j
  {
  }

  /**
   Joining lines that hold no line break and splitting them again with
   `splitlines` gives the lines back, unless the last line is empty (its
   separator then reads as a final terminator).
   */
  lemma {:induction false} SplitLinesJoin(lines: seq<string>)
    requires forall i :: 0 <= i < |lines| ==> NoLineBreak(lines[i])
    requires |lines| == 0 || lines[|lines| - 1] != ""
    ensures SplitLines(JoinLines(lines)) == lines
    decreases |lines|
  {
    var s := JoinLines(lines);
    if |lines| == 0 {
    } else if |lines| == 1 {
      FirstBreakUnique(s, |s|);
    } else {
      var tail := JoinLines(lines[1..]);
      var n := |lines[0]|;
      assert s == lines[0] + "\n" + tail;
      assert forall k :: 0 <= k < n ==> s[k] == lines[0][k];
      FirstBreakUnique(s, n);
      assert BreakLength(s, n) == 1;
      assert s[..n] == lines[0];
      assert s[n + 1..] == tail;
      SplitLinesJoin(lines[1..]);
      assert lines == [lines[0]] + lines[1..];
    }
  }

  /** An empty last line is lost by the round trip: `"a\n"` is the single line `"a"`. */
  lemma SplitLinesDropsTrailingEmptyLine(a: string)
    requires NoLineBreak(a)
    ensures JoinLines([a, ""]) == a + "\n"
    ensures SplitLines(JoinLines([a, ""])) == [a]
  {
    assert JoinLines([a, ""]) == a + "\n" + "";
    SplitTerminatedLine(a);
  }

  /** A single line followed by `'\n'` is that one line. */
  lemma SplitTerminatedLine(a: string)
    requires NoLineBreak(a)
    ensures SplitLines(a + "\n") == [a]
  {
    SplitLinesCons(a, "");
    assert a + "\n" + "" == a + "\n";
  }

  /** Two lines joined by `'\n'`, the second not empty, split back into the two. */
  lemma SplitTwoLines(a: string, b: string)
    requires NoLineBreak(a) && NoLineBreak(b) && |b| > 0
    ensures SplitLines(a + "\n" + b) == [a, b]
  {
    SplitLinesCons(a, b);
    SplitLinesSingle(b);
  }

  /** Two lines, each followed by `'\n'`, split back into the two. */
  lemma SplitTwoTerminatedLines(a: string, b: string)
    requires NoLineBreak(a) && NoLineBreak(b)
    ensures SplitLines(a + "\n" + b + "\n") == [a, b]
  {
    // Unfolding SplitLines on this literal shape floods the solver; the two step lemmas suffice.
    hide SplitLines, FirstBreak;
    SplitTerminatedLine(b);
    SplitLinesCons(a, b + "\n");
    assert a + "\n" + (b + "\n") == a + "\n" + b + "\n";
  }

  lemma JoinTwoLines(a: string, b: string)
    ensures JoinLines([a, b]) == a + "\n" + b
  {
    assert [a, b][1..] == [b];
  }

  /**
   Conversely, text whose only line breaks are `'\n'` and which does not end
   with one is reassembled by joining its lines.
   */
  lemma {:induction false} JoinSplitLines(s: string)
    requires forall k :: 0 <= k < |s| && IsLineBreak(s[k]) ==> s[k] == '\n'
    requires |s| == 0 || s[|s| - 1] != '\n'
    ensures JoinLines(SplitLines(s)) == s
    decreases |s|
  {
    if |s| == 0 {
    } else {
      var i := FirstBreak(s);
      if i < |s| {
        assert s[i] == '\n';
        assert BreakLength(s, i) == 1;
        var rest := s[i + 1..];
        assert i + 1 < |s|;
        assert rest[|rest| - 1] == s[|s| - 1];
        JoinSplitLines(rest);
        assert SplitLines(s) == [s[..i]] + SplitLines(rest);
        assert |SplitLines(rest)| > 0;
        assert s == s[..i] + "\n" + rest;
      }
    }
  }
}
